=== FILE: README.md ===
# DRVSCAN decision logic in Dafny

DRVSCAN is a driver-distraction detector. A Flask backend classifies an uploaded image into one of ten driver
behaviours and returns a severity, a score and an explanation. A React frontend uploads images or videos, shows
the result and can sound an alarm through the Web Audio API. This project models the parts of the repository
with sequential logic that can be stated precisely, and proves properties of that model:

- `alarm_sound.dfy` — the `AlarmSound` class (`frontend/src/utils/alarmSound.js`). It is a Dafny class with the
  fields `audioContext`, `oscillators` and `isPlaying`. Oscillators are abstract handles (class `Oscillator`)
  that record their base frequency, the frequency changes scheduled on them, their start and their stops. Time is
  integer milliseconds on the audio clock, passed in as `now`. Each `setTimeout` of `playAlarm` is a pending
  entry in `timers`, keyed by the alarm's number. The browser running that callback is `FireTimeout(k)`.
- `backend.dfy` — `backend/app.py`: the label, severity and explanation tables and their lookups with defaults,
  the score rule, the renaming of checkpoint keys, the check cascade of `POST /api/detect`, `GET /api/health`,
  and `load_model` over a `Server` class that holds the `model` global.
- `video_result_card.dfy`, `home.dfy`, `image_uploader.dfy`, `video_uploader.dfy`, `button.dfy` — the frontend's
  decision helpers, its render conditions and its small state machines. The state machines are the card's
  expanded row and alarm button, the page's file/preview/loading/result/error state, and the drag highlight.
- `wrappers.dfy`, `text.dfy`, `js_values.dfy` — `Option`, string helpers (`startswith`, `replace`), and
  JavaScript truthiness and `typeof`.

Two behaviours of the alarm code are worth knowing, and the model keeps both:

- The code does not keep "`isPlaying` if and only if `oscillators` is non-empty". The timeout callback
  (frontend/src/utils/alarmSound.js:71-75) clears `isPlaying` and leaves `this.oscillators` in place.
  `AlarmSound.Valid` states only what does hold: `isPlaying` implies exactly two oscillators.
- Two alarms can sound at once. The timeout of a replaced alarm still fires and clears `isPlaying` while the newer
  alarm sounds. The next `playAlarm` then sees `isPlaying` false (line 34), skips `stopAlarm`, and leaves the newer
  alarm's oscillators running beside the new ones. The three scenario methods at the end of `alarm_sound.dfy`
  prove each step of this.

## Model

| member | source | states |
|---|---|---|
| `AlarmSound.AlarmSound.constructor` | frontend/src/utils/alarmSound.js:7-11 | no context, no oscillators, not playing, no pending timeout |
| `AlarmSound.AlarmSound.InitAudio` | frontend/src/utils/alarmSound.js:16-20 | creates a fresh context only when there is none; otherwise the same context stays, and no other field changes |
| `AlarmSound.AlarmSound.PlayAlarm` | frontend/src/utils/alarmSound.js:28-78 | without a context: warns and changes nothing. Otherwise (with `now + duration` not negative, below which the source throws): `isPlaying` is true; `oscillators` is exactly two fresh, distinct oscillators, both started at `now`; the first carries the pulse schedule, the second stays at `frequency2`; one timeout holding both is added. When an alarm was playing, every old oscillator is stopped; when none was, the old oscillators are untouched |
| `AlarmSound.Oscillator.SchedulePulses` | frontend/src/utils/alarmSound.js:61-65 | appends exactly `PulseSchedule(start, end, hz1, hz2)` to the oscillator's events and changes nothing else |
| `AlarmSound.PulseScheduleLength` | frontend/src/utils/alarmSound.js:61-65 | the loop schedules 2·ceil(d/100) events for a duration d > 0, and none for d ≤ 0 |
| `AlarmSound.PulseScheduleAt` | frontend/src/utils/alarmSound.js:62-64 | step i puts `frequency1` at start + 100·i and `frequency2` at start + 100·i + 50 |
| `AlarmSound.PulseScheduleIncreasing` | frontend/src/utils/alarmSound.js:62-64 | event times strictly increase, none comes before the start, and every `frequency1` step comes before the end |
| `AlarmSound.AlarmSound.StopAlarm` | frontend/src/utils/alarmSound.js:83-95 | when playing with a non-empty list: stops every held oscillator (an already-stopped one is stopped again harmlessly), empties the list, clears `isPlaying`. Otherwise nothing changes, so a second call in a row is a no-op |
| `AlarmSound.AlarmSound.FireTimeout` | frontend/src/utils/alarmSound.js:71-75 | stops that alarm's own two oscillators and clears `isPlaying`, whichever alarm is current; `oscillators` is left as it was; the timeout is consumed |
| `AlarmSound.AlarmSound.PlayBeep` | frontend/src/utils/alarmSound.js:100-119 | without a context: warns and creates nothing. Otherwise (with `now + duration` not negative, below which the source throws): one fresh oscillator at `frequency`, started at `now`, with its stop scheduled at `now + duration`. It never writes `oscillators`, `isPlaying` or the timers |
| `AlarmSound.TimeoutKeepsOscillators` | frontend/src/utils/alarmSound.js:71-77 | after an alarm's timeout, `isPlaying` is false while the list still holds two oscillators |
| `AlarmSound.StaleTimeoutClearsFlag` | frontend/src/utils/alarmSound.js:34-75 | the timeout of a replaced alarm still fires: it clears `isPlaying` while the current alarm's oscillators still sound |
| `AlarmSound.OverlapAfterStaleTimeout` | frontend/src/utils/alarmSound.js:28-77 | after such a stale timeout, a third `playAlarm` leaves four oscillators sounding at once |
| `Backend.TablesConsistent` | backend/app.py:26-56 | indices 0–9 and only they have labels; every label has a severity; every severity has an explanation, and the explanations' keys are exactly Low, Medium and High; `unknown` has no severity and the default `Medium` has an explanation |
| `Backend.LabelOf` | backend/app.py:129 | the label has a severity exactly for indices 0–9; any other index gives `unknown` |
| `Backend.SeverityOf` | backend/app.py:130 | the severity is always a key of the explanations; an unmapped label gives `Medium` |
| `Backend.SeverityOfIndex` | backend/app.py:26-50 | the severity of each class index through both tables |
| `Backend.PredictSeverities` | backend/app.py:126-130 | a prediction is High exactly for classes 1, 3, 7 and 8; Low exactly for 0 and 9; Medium otherwise, out-of-range indices included |
| `Backend.Score` | backend/app.py:132-133 | a confidence in [0,1] gives a score in [0,1]; for `safe_driving` score + confidence = 1, for every other label score = confidence |
| `Backend.ExplainParts` | backend/app.py:135 | the explanation is the severity's text, then " Detected: ", then the label with each `_` replaced by a space, then "." |
| `Backend.Predict` | backend/app.py:112-146 | `None` exactly when no model is loaded or inference raised; otherwise the label is the class index's label, the severity is that label's severity, the confidence is passed through, the score is the score rule applied to label and confidence (so in [0,1] when the confidence is), and the explanation is built from severity and label |
| `Backend.PredictionFieldsNonEmpty` | backend/app.py:129-143 | every prediction has a severity in Low/Medium/High and a non-empty explanation |
| `Backend.Detect` | backend/app.py:150-189 | the status is 200, 400, 500 or 503. 503 exactly when no model is loaded. 200 exactly when a model is loaded, every file check passes and inference succeeds, and then the body is the prediction. Every other status carries an error message, and a 400 carries one of the three file-check messages. A part without a content type makes `startswith` raise, which gives 500 "Internal server error." |
| `Backend.DetectCheckOrder` | backend/app.py:153-181 | the checks apply in order: no model → 503, whatever the file; missing image or empty filename → 400; size over 5 MiB → 400; no content type → 500 "Internal server error." (the catch-all); content type not `image/...` → 400; failed prediction → 500 |
| `Backend.SizeLimitBoundary` | backend/app.py:168-169 | a file of exactly 5·1024·1024 bytes is accepted, one byte more is refused as too large |
| `Backend.Health` | backend/app.py:193-198 | always 200 and "healthy"; `model_loaded` is true exactly when a model is set |
| `Backend.StripKeyCases` | backend/app.py:82 | a key without the `efficientnet.` prefix is kept verbatim; a key with it loses the prefix and every further occurrence of it; the prefix followed by a name that does not contain it becomes that name |
| `Backend.StripKeyLaterOccurrence` | backend/app.py:82 | a second `efficientnet.` later in a prefixed key is removed too: prefix + a + prefix + s becomes a followed by s with its occurrences removed |
| `Backend.RenameKeys` | backend/app.py:80-83 | the loop builds exactly `Renamed(items)`: each item written under its new name, in order |
| `Backend.RenamedKeys` | backend/app.py:80-83 | the renamed dict's keys are exactly the new names of the items |
| `Backend.RenamedLastWins` | backend/app.py:80-83 | on a collision the later item wins: an item no later item collides with is the value under its new name |
| `Backend.Server.LoadModel` | backend/app.py:62-92 | succeeds exactly when the file exists, the checkpoint loads and has `model_state_dict`, and the renamed keys are the network's parameters; then the model holds the renamed weights. A missing file leaves `model` alone; any later failure leaves an untrained network in `model` |
| `Backend.Server.LoadModelAtomic` | backend/app.py:62-92 | same success condition and result; a failure leaves `model` as it was |
| `Backend.FailedLoadStillServes` | backend/app.py:66-92 | a model file that `torch.load` cannot read makes `load_model` fail, yet health reports the model loaded and the endpoint answers 200 |
| `Backend.FailedAtomicLoadStaysUnloaded` | backend/app.py:66-92 | with the corrected loader the same failure keeps `model_loaded` false and the endpoint at 503 |
| `Text.ReplaceChar` | backend/app.py:135 | same length; each position holds `to` where the input held `from`, and the input character elsewhere |
| `Text.RemoveAllAbsent` | backend/app.py:82 | `replace(pat, '')` leaves a string without `pat` unchanged |
| `Text.RemoveAllSkip` | backend/app.py:82 | `replace(pat, '')` removes an occurrence after text where no occurrence starts and goes on scanning: (a + pat + s) becomes a + (s with its occurrences removed), so every occurrence is removed |
| `VideoResultCard.SortDetections` | frontend/src/components/features/VideoResultCard.jsx:11 | a new sequence, a permutation (same multiset) of the detections, in nondecreasing timestamp order |
| `VideoResultCard.InsertSorted` | frontend/src/components/features/VideoResultCard.jsx:11 | inserting into a sorted timeline keeps it sorted |
| `VideoResultCard.HasHighSeverity` | frontend/src/components/features/VideoResultCard.jsx:64 | true exactly when some detection has severity `High`, so false for an empty list |
| `VideoResultCard.Render` | frontend/src/components/features/VideoResultCard.jsx:66-178 | the ALERT badge and the alarm section are shown exactly when some detection is High; the alarm button is shown active exactly when the alarm section is shown and `alarmPlaying` holds; the timeline is the detections sorted by timestamp (a permutation), empty exactly when there are no detections; a row shows its details exactly when the expanded index is set and lies within the timeline, and that row is the expanded one |
| `VideoResultCard.SeverityColor` | frontend/src/components/features/VideoResultCard.jsx:13-24 | grey exactly for a severity other than High/Medium/Low |
| `VideoResultCard.SeverityBackgroundColor` | frontend/src/components/features/VideoResultCard.jsx:26-37 | the default background exactly for a severity other than High/Medium/Low |
| `VideoResultCard.SeverityColorsDistinct` | frontend/src/components/features/VideoResultCard.jsx:13-37 | the three levels get pairwise different text colours and pairwise different backgrounds |
| `VideoResultCard.DistractionEmoji` | frontend/src/components/features/VideoResultCard.jsx:47-61 | the mapped emoji for the ten known classes; `⚠️` exactly for any other class |
| `VideoResultCard.RateColor` | frontend/src/components/features/VideoResultCard.jsx:95 | red exactly above 50, amber exactly in (20, 50], green exactly at or below 20 |
| `VideoResultCard.RateColorBoundaries` | frontend/src/components/features/VideoResultCard.jsx:95 | 50 is amber and 20 is green |
| `VideoResultCard.DistractedFramesColor` | frontend/src/components/features/VideoResultCard.jsx:87 | red exactly when some frame is distracted, green otherwise |
| `VideoResultCard.CardState.ExpandedRows` | frontend/src/components/features/VideoResultCard.jsx:158 | at most one row shows its details, namely the expanded index |
| `VideoResultCard.CardState.ClickRow` | frontend/src/components/features/VideoResultCard.jsx:133 | a click on the expanded row collapses it; a click on any other row expands that row; the alarm state is untouched |
| `VideoResultCard.CardState.TriggerAlarm` | frontend/src/components/features/VideoResultCard.jsx:39-45 | the button turns active; `onPlayAlarm` is invoked exactly when it was given; one reset of 3000 ms is queued |
| `VideoResultCard.CardState.FireAlarmReset` | frontend/src/components/features/VideoResultCard.jsx:44 | the oldest queued reset runs and turns the button off, even when a later click queued another reset |
| `Home.AcceptedData` | frontend/src/pages/Home.jsx:58-73 | a response is accepted exactly when it is ok and its body is an object with a truthy `severity`, a `score` whose `typeof` is `'number'` (NaN included) and a truthy `explanation`; the accepted data is the body |
| `Home.PredictionAccepted` | frontend/src/pages/Home.jsx:69 | the JSON of any prediction with a severity and an explanation passes the shape check |
| `Home.BackendResponsesAccepted` | frontend/src/pages/Home.jsx:63-73 | sent as a response whose `ok` holds exactly for a 2xx status, a detect answer is accepted exactly when its status is 200, and then the result is the prediction's JSON; every 400, 500 and 503 ends in the error banner |
| `Home.HomePage.constructor` | frontend/src/pages/Home.jsx:7-11 | no file, no preview, not loading, no result, no error |
| `Home.HomePage.HandleFileSelect` | frontend/src/pages/Home.jsx:21-35 | an old preview URL is revoked, once by the handler and once by the effect cleanup (lines 13-19). With a file: it is selected with a fresh preview URL, and result and error are cleared. With none: file and preview are cleared and result and error stay |
| `Home.HomePage.HandleClear` | frontend/src/pages/Home.jsx:37-45 | revokes the preview URL as above; file, preview, result and error all become null |
| `Home.HomePage.BeginAnalyze` | frontend/src/pages/Home.jsx:47-61 | without a file, or while loading, nothing changes and nothing is posted; otherwise loading starts, error and result are cleared, and the selected file is posted |
| `Home.HomePage.FinishAnalyze` | frontend/src/pages/Home.jsx:63-78 | an accepted response becomes the result with no error; anything else leaves the result null and sets the one fixed message; loading is off at the end either way, and exactly one of the result card (line 108) and the error banner (lines 95-106) is shown. Every handler keeps the page invariant: the card and the banner never show together, and neither shows while loading |
| `ImageUploader.FormatFileSize` | frontend/src/components/features/ImageUploader.jsx:29-33 | below 1024 the size reads "<n> B"; from 1024 below 1048576 it is in KB, with a value in [1, 1024); from 1048576 on it is in MB, with a value ≥ 1; the scaled value times the unit is the size |
| `ImageUploader.FormatFileSizeBoundaries` | frontend/src/components/features/ImageUploader.jsx:30-31 | 1023 bytes stay in bytes; 1024 is 1.0 KB; 1048575 is in KB; 1048576 is 1.0 MB |
| `ImageUploader.DecimalRoundTrip` | frontend/src/components/features/ImageUploader.jsx:30 | the byte count is written in decimal digits that read back as the same number, with no leading zero |
| `ImageUploader.DroppedFile` | frontend/src/components/features/ImageUploader.jsx:15-22 | only the first dropped file is forwarded, and only if its type starts with `image/` |
| `ImageUploader.PickedFile` | frontend/src/components/features/ImageUploader.jsx:24-27 | the first picked file is forwarded whatever its type; nothing when no file was picked |
| `ImageUploader.DropFiltersPick` | frontend/src/components/features/ImageUploader.jsx:15-27 | whatever a drop forwards, a pick would forward too; a pick forwards a non-image file that a drop refuses |
| `ImageUploader.Render` | frontend/src/components/features/ImageUploader.jsx:50-103 | drop zone exactly without a file; Clear exactly with one; Analyze disabled exactly without a file or while loading; remove and Clear disabled exactly while loading |
| `Button.Disabled` | frontend/src/components/ui/Button.jsx:16 | a loading button is disabled whatever its `disabled` prop says; a button that is not loading is disabled exactly when asked to be |
| `VideoUploader.VideoFilter` | frontend/src/components/features/VideoUploader.jsx:24-31 | an empty list causes neither callback nor alert; the first file is accepted exactly when its type starts with `video/`; otherwise the given alert is raised |
| `VideoUploader.FileInputOutcome` | frontend/src/components/features/VideoUploader.jsx:34-43 | an empty pick does nothing; the first picked file is accepted exactly when its type starts with `video/`; otherwise the alert reads "Please select a valid video file" |
| `VideoUploader.ImageRejected` | frontend/src/components/features/VideoUploader.jsx:26-30 | an image dropped as first file is refused with the drop alert |
| `VideoUploader.DropArea.HandleDrag` | frontend/src/components/features/VideoUploader.jsx:9-17 | dragenter and dragover turn the highlight on, dragleave turns it off, any other event type leaves it |
| `VideoUploader.DropArea.HandleDrop` | frontend/src/components/features/VideoUploader.jsx:19-32 | the highlight is always off afterwards, and the outcome is the `video/` filter with the drop alert |
| `VideoUploader.Render` | frontend/src/components/features/VideoUploader.jsx:50-103 | drop area exactly without a file; analyze group exactly with one; the file input, remove and analyze buttons are disabled exactly while loading |

## Findings

| source | as written | input that shows it | evidently intended | confidence | as-written member | corrected member |
|---|---|---|---|---|---|---|
| backend/app.py:70-92 | `model` gets a freshly built, untrained network before the checkpoint is read. Any exception after that returns `False` but leaves `model` set | a model file exists, but `torch.load` raises, or the checkpoint lacks `model_state_dict`, or its keys do not match: `load_model()` returns `False`, yet `/api/health` reports `model_loaded: true` and `/api/detect` answers 200 with predictions from random weights | a failed load leaves `model` as `None`, as the start-up message "Server will return errors until model is loaded" says | high (not executed) | `Backend.Server.LoadModel`, `Backend.FailedLoadStillServes` | `Backend.Server.LoadModelAtomic`, `Backend.FailedAtomicLoadStaysUnloaded` |

## Left out

- Web Audio output: gain nodes and their exponential ramps (0.3 → 0.01 for an alarm, 0.2 → 0.01 for a beep), node connections, and real sound. Oscillators record only what is asked of them.
- AlarmSound.Oscillator.SchedulePulses: time is integer milliseconds. The source steps a float `t += 0.1` in seconds, and that accumulated rounding may give one pulse more or fewer than ceil(d/100).
- The `setTimeout` delay: the browser clamps negative delays to 0 and overflows delays above 2^31 − 1 ms. A negative duration still reaches `setTimeout` (line 71) when the clock reading is large enough that `now + duration` is not negative. The model records the delay and lets the environment choose when `FireTimeout` runs.
- AlarmSound.AlarmSound.PlayAlarm: requires `now + durationMs >= 0` once a context exists. Below that, `exponentialRampToValueAtTime` (alarmSound.js:58) throws a RangeError for the negative end time. That happens after line 38 has set `isPlaying`, and before the timeout and the list assignment (lines 71-77), which would leave `isPlaying` true with no oscillators. The throwing path is not modelled; the default duration is 3000 ms.
- AlarmSound.AlarmSound.PlayBeep: requires `now + durationMs >= 0` once a context exists. Below that, the ramp (line 112) throws before `start` (line 117), so nothing sounds. The throwing path is not modelled.
- `initAudio` on a platform without an audio context constructor, where the source would throw. Whether a context can be created is not modelled.
- Frequencies and durations are integers here; the source accepts any JavaScript number.
- The default arguments of `playBeep` (1000 Hz, 200 ms): `AlarmSound.PlayBeep` takes both as parameters.
- AlarmSound.AlarmSound.FireTimeout: `stop()` on an oscillator that was already stopped is assumed not to throw. The timeout callback (alarmSound.js:72-73) has no `try`, unlike `stopAlarm` (lines 86-90). The Web Audio API throws only for `stop()` before `start()`, and every alarm oscillator is started. `StaleTimeoutClearsFlag`, `OverlapAfterStaleTimeout` and the overlap described above rely on this.
- Backend.Score: confidence and score are reals. In the source they are 32/64-bit floats, so `score + confidence == 1.0` holds there only up to rounding.
- VideoResultCard.RateColor: the percentage is a real number. A `NaN` or missing `distraction_percentage` fails both comparisons in the source and shows green; the model has no such value.
- The PyTorch model, `torch.load` internals, softmax/arg-max, image decoding and resizing (`preprocess_image`), Flask routing, CORS, `.env` loading, `secure_filename`, file `seek`/`tell`/`read` and logging. The classifier output, the file size and the content type are inputs.
- Backend.Server.LoadModel: `load_state_dict` in strict mode is modelled only by its key check; tensor shapes, and the partial copy it makes before raising, are not modelled.
- Backend.Detect: exceptions from Flask's request parsing or from file I/O (also answered 500 by the catch-all) are not modelled. Only the missing content type is.
- Browser plumbing: `fetch`, `FormData`, JSON parsing (its outcome is an input), `URL.createObjectURL`/`revokeObjectURL` (URLs are numbered tokens), `alert` (an outcome value), `preventDefault`/`stopPropagation`, the DOM ref and `click()`.
- React's rendering timing: a second click on Analyze before the re-render would see the old `isLoading`. Handlers here see the latest state.
- `toFixed` formatting for sizes, percentages, confidence and score. KB/MB sizes are an exact value plus unit; the rounding to one decimal is not modelled.
- VideoResultCard.SortDetections: stability (equal timestamps keep their input order, as JavaScript's sort does) is not proved. NaN timestamps are not modelled.
- VideoResultCard.DistractionEmoji: lookups of names inherited from `Object.prototype` (such as `"toString"`) are not modelled; the source returns a function for those.
- The `onPlayAlarm` callback is not connected to `AlarmSound.PlayAlarm`. The model records only whether it was invoked.
- Presentation-only files: `ResultCard.jsx`, `Card.jsx` and `Header.jsx`. From `Button.jsx`, only its disabled rule is modelled. JSX markup, CSS classes and styling beyond the boolean render conditions are left out.

=== FILE: alarm_sound.dfy ===
/** The alarm synthesiser of frontend/src/utils/alarmSound.js.

    Time is integer milliseconds on the audio clock; the caller passes the
    clock's current reading (`audioContext.currentTime`) as `now`. An
    oscillator is an abstract handle that records what was asked of it: its
    base frequency, the frequency changes scheduled on it, when it was started,
    whether it was stopped, and a scheduled stop time. The `setTimeout` that
    ends an alarm is a pending entry in `timers`, keyed by the number of the
    alarm that scheduled it; the browser running it is the call `FireTimeout(k)`. */
module AlarmSound {
  import opened Wrappers

  const DefaultDurationMs := 3000
  const DefaultFrequency1 := 800
  const DefaultFrequency2 := 600
  /** The pulse period (`pulseRate = 0.1` s) and its half. */
  const PulseMs := 100
  const PulseHalfMs := 50
  /** The frequency of a freshly created Web Audio oscillator. */
  const OscillatorDefaultHz := 440

  /** `frequency.setValueAtTime(hz, at)`. */
  datatype FrequencyEvent = FrequencyEvent(hz: int, atMs: int)

  /** Everything recorded on one oscillator. */
  datatype OscillatorView = OscillatorView(
    frequency: int,
    events: seq<FrequencyEvent>,
    startedAt: Option<int>,
    stopped: bool,
    scheduledStop: Option<int>)

  /** The schedule the pulse loop writes for steps `t`, `t + 100`, ... below
      `end`: `hz1` at each step and `hz2` half a step later. */
  function PulseSchedule(t: int, end: int, hz1: int, hz2: int): seq<FrequencyEvent>
    decreases end - t
  {
    if t < end then
      [FrequencyEvent(hz1, t), FrequencyEvent(hz2, t + PulseHalfMs)] + PulseSchedule(t + PulseMs, end, hz1, hz2)
    else []
  }

  /** The number of loop steps for an alarm of `durationMs`: ceil(d / 100), and none for d <= 0. */
  function PulseCount(durationMs: int): nat {
    if durationMs <= 0 then 0 else (durationMs + PulseMs - 1) / PulseMs
  }

  /** The pulse loop schedules two events for each of ceil(d / 100) steps. */
  lemma {:induction false} PulseScheduleLength(t: int, end: int, hz1: int, hz2: int)
    ensures |PulseSchedule(t, end, hz1, hz2)| == 2 * PulseCount(end - t)
    decreases end - t
  {
    if t < end {
      PulseScheduleLength(t + PulseMs, end, hz1, hz2);
      assert PulseCount(end - t) == PulseCount(end - (t + PulseMs)) + 1;
    }
  }

  /** Step `i` of the schedule: `hz1` at `t + 100 i`, then `hz2` at `t + 100 i + 50`. */
  lemma {:induction false} PulseScheduleAt(t: int, end: int, hz1: int, hz2: int, i: nat)
    requires i < PulseCount(end - t)
    ensures |PulseSchedule(t, end, hz1, hz2)| == 2 * PulseCount(end - t)
    ensures PulseSchedule(t, end, hz1, hz2)[2 * i] == FrequencyEvent(hz1, t + PulseMs * i)
    ensures PulseSchedule(t, end, hz1, hz2)[2 * i + 1] == FrequencyEvent(hz2, t + PulseMs * i + PulseHalfMs)
    decreases end - t
  {
    PulseScheduleLength(t, end, hz1, hz2);
    if i > 0 {
      assert PulseCount(end - t) == PulseCount(end - (t + PulseMs)) + 1;
      PulseScheduleAt(t + PulseMs, end, hz1, hz2, i - 1);
    }
  }

  /** The scheduled events come at strictly increasing times, all from `t` on,
      and every `hz1` step lies before `end`. */
  lemma {:induction false} PulseScheduleIncreasing(t: int, end: int, hz1: int, hz2: int)
    ensures forall j :: 0 <= j < |PulseSchedule(t, end, hz1, hz2)| ==> t <= PulseSchedule(t, end, hz1, hz2)[j].atMs
    ensures forall j :: 0 <= j < |PulseSchedule(t, end, hz1, hz2)| && j % 2 == 0 ==> PulseSchedule(t, end, hz1, hz2)[j].atMs < end
    ensures forall j :: 0 < j < |PulseSchedule(t, end, hz1, hz2)| ==>
      PulseSchedule(t, end, hz1, hz2)[j - 1].atMs < PulseSchedule(t, end, hz1, hz2)[j].atMs
    decreases end - t
  {
    if t < end {
      var rest := PulseSchedule(t + PulseMs, end, hz1, hz2);
      PulseScheduleIncreasing(t + PulseMs, end, hz1, hz2);
      var s := PulseSchedule(t, end, hz1, hz2);
      assert s == [FrequencyEvent(hz1, t), FrequencyEvent(hz2, t + PulseHalfMs)] + rest;
      forall j | 2 <= j < |s| ensures s[j] == rest[j - 2] { }
    }
  }

  /** An audio output context; only its identity matters here. */
  class AudioContext {
    constructor ()
    {
    }
  }

  class Oscillator {
    var frequency: int
    var events: seq<FrequencyEvent>
    var startedAt: Option<int>
    var stopped: bool
    var scheduledStop: Option<int>

    function View(): OscillatorView
      reads this
    {
      OscillatorView(frequency, events, startedAt, stopped, scheduledStop)
    }

    /** Audible: started and not stopped (a scheduled stop time is not consulted). */
    predicate Sounding()
      reads this
    {
      startedAt.Some? && !stopped
    }

    /** `audioContext.createOscillator()`. */
    constructor ()
      ensures View() == OscillatorView(OscillatorDefaultHz, [], None, false, None)
    {
      frequency, events, startedAt, stopped, scheduledStop := OscillatorDefaultHz, [], None, false, None;
    }

    /** `osc.frequency.value = hz`. */
    method SetFrequency(hz: int)
      modifies this
      ensures View() == old(View()).(frequency := hz)
    {
      frequency := hz;
    }

    /** `osc.frequency.setValueAtTime(hz, atMs)`. */
    method SetValueAtTime(hz: int, atMs: int)
      modifies this
      ensures View() == old(View()).(events := old(events) + [FrequencyEvent(hz, atMs)])
    {
      events := events + [FrequencyEvent(hz, atMs)];
    }

    /** The pulse loop of `playAlarm`: for t = start, start + 100, ... while
        t < end, schedule `hz1` at t and `hz2` at t + 50. */
    method SchedulePulses(startMs: int, endMs: int, hz1: int, hz2: int)
      modifies this
      ensures View() == old(View()).(events := old(events) + PulseSchedule(startMs, endMs, hz1, hz2))
    {
      var t := startMs;
      while t < endMs
        invariant events + PulseSchedule(t, endMs, hz1, hz2) == old(events) + PulseSchedule(startMs, endMs, hz1, hz2)
        invariant View() == old(View()).(events := events)
        decreases endMs - t
      {
        ghost var rest := PulseSchedule(t + PulseMs, endMs, hz1, hz2);
        assert PulseSchedule(t, endMs, hz1, hz2) == [FrequencyEvent(hz1, t), FrequencyEvent(hz2, t + PulseHalfMs)] + rest;
        SetValueAtTime(hz1, t);
        SetValueAtTime(hz2, t + PulseHalfMs);
        t := t + PulseMs;
      }
    }

    /** `osc.start(atMs)`. */
    method Start(atMs: int)
      modifies this
      ensures View() == old(View()).(startedAt := Some(atMs))
    {
      startedAt := Some(atMs);
    }

    /** `osc.stop()`: stop now; stopping a stopped oscillator changes nothing. */
    method Stop()
      modifies this
      ensures View() == old(View()).(stopped := true)
    {
      stopped := true;
    }

    /** `osc.stop(atMs)`: stop at a later time on the audio clock. */
    method StopAt(atMs: int)
      modifies this
      ensures View() == old(View()).(scheduledStop := Some(atMs))
    {
      scheduledStop := Some(atMs);
    }
  }

  /** The callback registered by `setTimeout` in `playAlarm`: it holds that
      alarm's two oscillators and the delay it was scheduled with. */
  datatype PendingTimeout = PendingTimeout(first: Oscillator, second: Oscillator, delayMs: int)

  class AlarmSound {
    var audioContext: AudioContext?
    var oscillators: seq<Oscillator>
    var isPlaying: bool
    /** Timeout callbacks not yet run, by alarm number. */
    var timers: map<nat, PendingTimeout>
    /** The number the next `playAlarm` gives its timeout. */
    var nextAlarm: nat

    /** What the code keeps. It does NOT keep "isPlaying iff oscillators is
        non-empty": a timeout clears the flag and leaves the list. */
    ghost predicate Valid()
      reads this
    {
      && (isPlaying ==> |oscillators| == 2)
      && (|oscillators| == 0 || |oscillators| == 2)
      && (audioContext == null ==> !isPlaying && oscillators == [] && timers == map[])
      && (forall k :: k in timers ==> k < nextAlarm)
    }

    constructor ()
      ensures Valid()
      ensures audioContext == null && oscillators == [] && !isPlaying
      ensures timers == map[] && nextAlarm == 0
    {
      audioContext := null;
      oscillators := [];
      isPlaying := false;
      timers := map[];
      nextAlarm := 0;
    }

    /** Creates the audio context the first time; later calls keep the same one. */
    method InitAudio()
      requires Valid()
      modifies this
      ensures Valid()
      ensures old(audioContext) != null ==> audioContext == old(audioContext)
      ensures old(audioContext) == null ==> audioContext != null && fresh(audioContext)
      ensures oscillators == old(oscillators) && isPlaying == old(isPlaying)
      ensures timers == old(timers) && nextAlarm == old(nextAlarm)
    {
      if audioContext == null {
        audioContext := new AudioContext();
      }
    }

    /** Stops every held oscillator and empties the list, but only while an
        alarm is playing and the list is non-empty; otherwise a no-op. */
    method StopAlarm()
      requires Valid()
      modifies this, oscillators
      ensures Valid()
      ensures if old(isPlaying) && |old(oscillators)| > 0 then
          && oscillators == [] && !isPlaying
          && (forall o :: o in old(oscillators) ==> o.View() == old(o.View()).(stopped := true))
        else
          && oscillators == old(oscillators) && isPlaying == old(isPlaying)
          && (forall o :: o in old(oscillators) ==> o.View() == old(o.View()))
      ensures audioContext == old(audioContext) && timers == old(timers) && nextAlarm == old(nextAlarm)
    {
      if isPlaying && |oscillators| > 0 {
        var i := 0;
        while i < |oscillators|
          invariant 0 <= i <= |oscillators|
          invariant forall j :: 0 <= j < i ==> oscillators[j].View() == old(oscillators[j].View()).(stopped := true)
          invariant forall j :: i <= j < |oscillators| && oscillators[j] !in oscillators[..i] ==>
            oscillators[j].View() == old(oscillators[j].View())
          modifies oscillators
        {
          oscillators[i].Stop();
          i := i + 1;
        }
        oscillators := [];
        isPlaying := false;
      }
    }

    /** Starts a two-tone pulsing alarm of `durationMs`, stopping a playing
        one first; without a context it only warns. The gain ramp to the end
        time throws when that time is negative on the audio clock, so a caller
        with a context must keep `now + durationMs` non-negative. */
    method PlayAlarm(now: int, durationMs: int, frequency1: int, frequency2: int) returns (warned: bool)
      requires Valid()
      requires audioContext != null ==> 0 <= now + durationMs
      modifies this, oscillators
      ensures Valid()
      ensures warned <==> old(audioContext) == null
      ensures audioContext == old(audioContext)
      ensures warned ==>
        && oscillators == old(oscillators) && isPlaying == old(isPlaying)
        && timers == old(timers) && nextAlarm == old(nextAlarm)
      ensures !warned ==>
        && isPlaying && |oscillators| == 2
        && fresh(oscillators[0]) && fresh(oscillators[1]) && oscillators[0] != oscillators[1]
        && oscillators[0].View() == OscillatorView(frequency1, PulseSchedule(now, now + durationMs, frequency1, frequency2), Some(now), false, None)
        && oscillators[1].View() == OscillatorView(frequency2, [], Some(now), false, None)
        && timers == old(timers)[old(nextAlarm) := PendingTimeout(oscillators[0], oscillators[1], durationMs)]
        && nextAlarm == old(nextAlarm) + 1
      ensures !warned && old(isPlaying) ==>
        forall o :: o in old(oscillators) ==> o.View() == old(o.View()).(stopped := true)
      ensures warned || !old(isPlaying) ==>
        forall o :: o in old(oscillators) ==> o.View() == old(o.View())
    {
      if audioContext == null {
        warned := true;
        return;
      }
      warned := false;
      if isPlaying {
        StopAlarm();
      }
      isPlaying := true;
      var startTime := now;
      var endTime := startTime + durationMs;
      var osc1 := new Oscillator();
      var osc2 := new Oscillator();
      osc1.SetFrequency(frequency1);
      osc2.SetFrequency(frequency2);
      osc1.SchedulePulses(startTime, endTime, frequency1, frequency2);
      osc1.Start(startTime);
      osc2.Start(startTime);
      timers := timers[nextAlarm := PendingTimeout(osc1, osc2, durationMs)];
      nextAlarm := nextAlarm + 1;
      oscillators := [osc1, osc2];
    }

    /** The timeout of alarm `k` runs: it stops that alarm's two oscillators and
        clears `isPlaying`, whatever alarm is current, and leaves the list alone. */
    method FireTimeout(k: nat)
      requires Valid() && k in timers
      modifies this, timers[k].first, timers[k].second
      ensures Valid()
      ensures !isPlaying && timers == old(timers) - {k}
      ensures oscillators == old(oscillators) && audioContext == old(audioContext) && nextAlarm == old(nextAlarm)
      ensures old(timers[k]).first.View() == old(timers[k].first.View()).(stopped := true)
      ensures old(timers[k]).second.View() == old(timers[k].second.View()).(stopped := true)
    {
      var pending := timers[k];
      pending.first.Stop();
      pending.second.Stop();
      isPlaying := false;
      timers := timers - {k};
    }

    /** A single fire-and-forget beep; it never touches the alarm's fields.
        Without a context it only warns and creates nothing. The gain ramp and
        the scheduled stop throw for a negative end time, so a caller with a
        context must keep `now + durationMs` non-negative. */
    method PlayBeep(now: int, frequency: int, durationMs: int) returns (warned: bool, osc: Oscillator?)
      requires audioContext != null ==> 0 <= now + durationMs
      ensures warned <==> audioContext == null
      ensures warned <==> osc == null
      ensures osc != null ==>
        fresh(osc) && osc.View() == OscillatorView(frequency, [], Some(now), false, Some(now + durationMs))
    {
      if audioContext == null {
        return true, null;
      }
      warned := false;
      var startTime := now;
      osc := new Oscillator();
      osc.SetFrequency(frequency);
      osc.Start(startTime);
      osc.StopAt(startTime + durationMs);
    }
  }

  /** After an alarm's timeout, `isPlaying` is false while the list still holds
      the two oscillators. */
  method TimeoutKeepsOscillators() returns (playing: bool, held: nat)
    ensures !playing && held == 2
  {
    var alarm := new AlarmSound();
    alarm.InitAudio();
    var warned := alarm.PlayAlarm(0, DefaultDurationMs, DefaultFrequency1, DefaultFrequency2);
    alarm.FireTimeout(0);
    playing, held := alarm.isPlaying, |alarm.oscillators|;
  }

  /** The timeout of a replaced alarm still fires: it clears `isPlaying` while
      the current alarm's oscillators go on sounding. */
  method StaleTimeoutClearsFlag() returns (playing: bool, currentSounding: bool)
    ensures !playing && currentSounding
  {
    var alarm := new AlarmSound();
    alarm.InitAudio();
    var warned := alarm.PlayAlarm(0, DefaultDurationMs, DefaultFrequency1, DefaultFrequency2);
    warned := alarm.PlayAlarm(1000, DefaultDurationMs, DefaultFrequency1, DefaultFrequency2);
    alarm.FireTimeout(0);
    playing := alarm.isPlaying;
    currentSounding := alarm.oscillators[0].Sounding() && alarm.oscillators[1].Sounding();
  }

  /** After a stale timeout, a new alarm does not stop the previous one: four
      oscillators sound at once. */
  method OverlapAfterStaleTimeout() returns (sounding: nat)
    ensures sounding == 4
  {
    var alarm := new AlarmSound();
    alarm.InitAudio();
    var warned := alarm.PlayAlarm(0, DefaultDurationMs, DefaultFrequency1, DefaultFrequency2);
    warned := alarm.PlayAlarm(1000, DefaultDurationMs, DefaultFrequency1, DefaultFrequency2);
    alarm.FireTimeout(0);
    var previous := alarm.oscillators;
    assert previous[0].Sounding() && previous[1].Sounding();
    warned := alarm.PlayAlarm(3500, DefaultDurationMs, DefaultFrequency1, DefaultFrequency2);
    assert previous[0] in previous && previous[1] in previous;
    var current := alarm.oscillators;
    sounding := 0;
    if previous[0].Sounding() { sounding := sounding + 1; }
    if previous[1].Sounding() { sounding := sounding + 1; }
    if current[0].Sounding() { sounding := sounding + 1; }
    if current[1].Sounding() { sounding := sounding + 1; }
  }
}

=== FILE: backend.dfy ===
/** The decision logic of backend/app.py with Flask, PyTorch and PIL
    abstracted away: the label tables, the derivation of severity, score and
    explanation from a classifier output, the renaming of checkpoint keys, the
    check cascade of `POST /api/detect` and `GET /api/health`.

    The classifier output (arg-max index and its softmax probability) is an
    input, `None` when preprocessing or the network raised. The uploaded file
    is described by its name, its size and its content type. */
module Backend {
  import opened Wrappers
  import opened Text

  const MaxFileSize := 5 * 1024 * 1024
  const NumClasses := 10
  const KeyPrefix := "efficientnet."
  const StateDictKey := "model_state_dict"

  const ClassLabels: map<int, string> := map[
    0 := "safe_driving",
    1 := "texting_right",
    2 := "talking_phone_right",
    3 := "texting_left",
    4 := "talking_phone_left",
    5 := "operating_radio",
    6 := "drinking",
    7 := "reaching_behind",
    8 := "hair_makeup",
    9 := "talking_passenger"]

  const SeverityMap: map<string, string> := map[
    "safe_driving" := "Low",
    "texting_right" := "High",
    "talking_phone_right" := "Medium",
    "texting_left" := "High",
    "talking_phone_left" := "Medium",
    "operating_radio" := "Medium",
    "drinking" := "Medium",
    "reaching_behind" := "High",
    "hair_makeup" := "High",
    "talking_passenger" := "Low"]

  const Explanations: map<string, string> := map[
    "Low" := "No strong distraction indicators detected. The driver appears focused on the road.",
    "Medium" := "Some distraction cues detected. Consider removing potential distractions.",
    "High" := "Strong distraction signs present. Immediate attention required for safety."]

  const UnknownLabel := "unknown"
  const DefaultSeverity := "Medium"

  const ModelMissingError := "Model not loaded. Please add model file."
  const NoImageError := "No image file provided."
  const TooLargeError := "File too large. Maximum size is 5MB."
  const InvalidTypeError := "Invalid file type. Please upload an image."
  const PredictionFailedError := "Prediction failed. Please try again."
  const InternalError := "Internal server error."

  /** `d.get(k)` on a Python dict. */
  function Get<K, V>(m: map<K, V>, k: K): Option<V> {
    if k in m then Some(m[k]) else None
  }

  /** The three tables fit together: every class index has a label, every label a
      severity, and the severities are exactly the keys of the explanations. */
  lemma TablesConsistent()
    ensures forall i :: i in ClassLabels <==> 0 <= i < NumClasses
    ensures forall i :: i in ClassLabels ==> ClassLabels[i] in SeverityMap
    ensures forall l :: l in SeverityMap ==> SeverityMap[l] in Explanations
    ensures Explanations.Keys == {"Low", "Medium", "High"}
    ensures UnknownLabel !in SeverityMap && DefaultSeverity in Explanations
  {
  }

  /** `CLASS_LABELS.get(predicted_idx, 'unknown')`. */
  function LabelOf(classIndex: int): (classLabel: string)
    ensures classLabel in SeverityMap <==> 0 <= classIndex < NumClasses
    ensures !(0 <= classIndex < NumClasses) ==> classLabel == UnknownLabel
  {
    Get(ClassLabels, classIndex).GetOr(UnknownLabel)
  }

  /** `SEVERITY_MAP.get(class_label, 'Medium')`; always a key of the explanations. */
  function SeverityOf(classLabel: string): (severity: string)
    ensures severity in Explanations
    ensures classLabel !in SeverityMap ==> severity == DefaultSeverity
  {
    Get(SeverityMap, classLabel).GetOr(DefaultSeverity)
  }

  /** Score 0 means safe and 1 distracted: the complement of the confidence for
      `safe_driving`, the confidence itself otherwise. */
  function Score(classLabel: string, confidence: real): (score: real)
    ensures 0.0 <= confidence <= 1.0 ==> 0.0 <= score <= 1.0
    ensures classLabel == "safe_driving" ==> score + confidence == 1.0
    ensures classLabel != "safe_driving" ==> score == confidence
  {
    if classLabel == "safe_driving" then 1.0 - confidence else confidence
  }

  /** The explanation text of `predict_distraction`. */
  function Explain(severity: string, classLabel: string): string
    requires severity in Explanations
  {
    Explanations[severity] + " Detected: " + ReplaceChar(classLabel, '_', ' ') + "."
  }

  /** The text ahead of the label in an explanation is the severity's own text,
      and the label appears with its underscores turned into spaces. */
  lemma ExplainParts(severity: string, classLabel: string)
    requires severity in Explanations
    ensures var e := Explain(severity, classLabel);
      && StartsWith(e, Explanations[severity] + " Detected: ")
      && |e| == |Explanations[severity]| + 11 + |classLabel| + 1
      && e[|e| - 1] == '.'
      && forall i :: 0 <= i < |classLabel| ==>
           e[|Explanations[severity]| + 11 + i] == (if classLabel[i] == '_' then ' ' else classLabel[i])
  {
    var prefix := Explanations[severity] + " Detected: ";
    var e := Explain(severity, classLabel);
    assert e == prefix + ReplaceChar(classLabel, '_', ' ') + ".";
    assert e[..|prefix|] == prefix;
    forall i | 0 <= i < |classLabel|
      ensures e[|Explanations[severity]| + 11 + i] == (if classLabel[i] == '_' then ' ' else classLabel[i])
    {
      assert e[|prefix| + i] == ReplaceChar(classLabel, '_', ' ')[i];
    }
  }

  /** An output of the classifier: the arg-max index and its probability. */
  datatype Inference = Inference(classIndex: int, confidence: real)

  /** The dictionary `predict_distraction` returns. */
  datatype Prediction = Prediction(
    severity: string,
    score: real,
    explanation: string,
    className: string,
    confidence: real)

  /** A state dict entry's value. */
  type Tensor = seq<real>

  /** The loaded network: its parameter names and, once a checkpoint has been
      loaded into it, the weights (`None`: as initialised, not loaded). */
  datatype Network = Network(parameterNames: set<string>, weights: Option<map<string, Tensor>>)

  /** `predict_distraction`: `None` when no model is loaded or the network raised. */
  function Predict(model: Option<Network>, inference: Option<Inference>): (r: Option<Prediction>)
    ensures r.Some? <==> model.Some? && inference.Some?
    ensures r.Some? ==>
      && r.value.className == LabelOf(inference.value.classIndex)
      && r.value.confidence == inference.value.confidence
      && r.value.severity == SeverityOf(r.value.className)
      && r.value.severity in Explanations
      && r.value.score == Score(r.value.className, r.value.confidence)
      && r.value.explanation == Explain(r.value.severity, r.value.className)
      && (0.0 <= r.value.confidence <= 1.0 ==> 0.0 <= r.value.score <= 1.0)
  {
    if model.None? then None
    else match inference
      case None => None
      case Some(out) =>
        var classLabel := LabelOf(out.classIndex);
        var severity := SeverityOf(classLabel);
        Some(Prediction(severity, Score(classLabel, out.confidence), Explain(severity, classLabel), classLabel, out.confidence))
  }

  /** A prediction always carries a non-empty severity and explanation. */
  lemma PredictionFieldsNonEmpty(model: Option<Network>, inference: Option<Inference>)
    requires Predict(model, inference).Some?
    ensures Predict(model, inference).value.severity in {"Low", "Medium", "High"}
    ensures Predict(model, inference).value.explanation != ""
  {
    var p := Predict(model, inference).value;
    SeverityOfIndex(inference.value.classIndex);
    ExplainParts(p.severity, p.className);
  }

  /** The severity the tables give each class index. */
  lemma SeverityOfIndex(c: int)
    ensures SeverityOf(LabelOf(c)) ==
      if c == 1 || c == 3 || c == 7 || c == 8 then "High"
      else if c == 0 || c == 9 then "Low"
      else "Medium"
  {
    if c == 0 { assert LabelOf(c) == "safe_driving"; }
    else if c == 1 { assert LabelOf(c) == "texting_right"; }
    else if c == 2 { assert LabelOf(c) == "talking_phone_right"; }
    else if c == 3 { assert LabelOf(c) == "texting_left"; }
    else if c == 4 { assert LabelOf(c) == "talking_phone_left"; }
    else if c == 5 { assert LabelOf(c) == "operating_radio"; }
    else if c == 6 { assert LabelOf(c) == "drinking"; }
    else if c == 7 { assert LabelOf(c) == "reaching_behind"; }
    else if c == 8 { assert LabelOf(c) == "hair_makeup"; }
    else if c == 9 { assert LabelOf(c) == "talking_passenger"; }
    else { assert LabelOf(c) == UnknownLabel; }
  }

  /** Which class indices give which severity: High for the two texting classes,
      reaching behind and hair/makeup; Low for safe driving and talking to a
      passenger; Medium for the rest, an out-of-range index included. */
  lemma PredictSeverities(network: Network, out: Inference)
    ensures var p := Predict(Some(network), Some(out)).value;
      && (p.severity == "High" <==> out.classIndex in {1, 3, 7, 8})
      && (p.severity == "Low" <==> out.classIndex in {0, 9})
      && (p.severity == "Medium" <==> out.classIndex !in {0, 1, 3, 7, 8, 9})
  {
    SeverityOfIndex(out.classIndex);
    assert "High" != "Low" && "High" != "Medium" && "Low" != "Medium";
  }

  /** A file part of the multipart request. `contentType` is `None` when the
      part carries no Content-Type header. */
  datatype Upload = Upload(filename: string, sizeBytes: nat, contentType: Option<string>)

  /** `request.files` of `POST /api/detect`. */
  datatype DetectRequest = DetectRequest(files: map<string, Upload>)

  datatype ApiBody =
    | ErrorBody(message: string)
    | PredictionBody(prediction: Prediction)
    | HealthBody(status: string, modelLoaded: bool)

  datatype ApiResponse = ApiResponse(status: int, body: ApiBody)

  /** Every file check of the endpoint passes. */
  predicate UploadAccepted(request: DetectRequest) {
    && "image" in request.files
    && request.files["image"].filename != ""
    && request.files["image"].sizeBytes <= MaxFileSize
    && request.files["image"].contentType.Some?
    && StartsWith(request.files["image"].contentType.value, "image/")
  }

  /** `detect_distraction_endpoint`: the model check, then the file checks in
      order (present, named, at most 5 MiB, an image type), then the prediction.
      A part without a content type makes `startswith` raise, which the
      endpoint's catch-all turns into a 500. */
  function Detect(model: Option<Network>, request: DetectRequest, inference: Option<Inference>): (r: ApiResponse)
    ensures r.status in {200, 400, 500, 503}
    ensures r.status == 503 <==> model.None?
    ensures r.status == 200 <==> model.Some? && UploadAccepted(request) && inference.Some?
    ensures r.status == 200 ==> r.body == PredictionBody(Predict(model, inference).value)
    ensures r.status != 200 ==> r.body.ErrorBody?
    ensures r.status == 400 ==> r.body.message in {NoImageError, TooLargeError, InvalidTypeError}
  {
    if model.None? then ApiResponse(503, ErrorBody(ModelMissingError))
    else if "image" !in request.files then ApiResponse(400, ErrorBody(NoImageError))
    else
      var upload := request.files["image"];
      if upload.filename == "" then ApiResponse(400, ErrorBody(NoImageError))
      else if upload.sizeBytes > MaxFileSize then ApiResponse(400, ErrorBody(TooLargeError))
      else if upload.contentType.None? then ApiResponse(500, ErrorBody(InternalError))
      else if !StartsWith(upload.contentType.value, "image/") then ApiResponse(400, ErrorBody(InvalidTypeError))
      else match Predict(model, inference)
        case None => ApiResponse(500, ErrorBody(PredictionFailedError))
        case Some(p) => ApiResponse(200, PredictionBody(p))
  }

  /** Each check wins over every later one: the first failing check decides
      the response whatever the later inputs are. */
  lemma DetectCheckOrder(model: Option<Network>, request: DetectRequest, inference: Option<Inference>)
    ensures model.None? ==> Detect(model, request, inference) == ApiResponse(503, ErrorBody(ModelMissingError))
    ensures model.Some? && ("image" !in request.files || request.files["image"].filename == "") ==>
      Detect(model, request, inference) == ApiResponse(400, ErrorBody(NoImageError))
    ensures (model.Some? && "image" in request.files && request.files["image"].filename != ""
      && request.files["image"].sizeBytes > MaxFileSize) ==>
      Detect(model, request, inference) == ApiResponse(400, ErrorBody(TooLargeError))
    ensures (model.Some? && "image" in request.files && request.files["image"].filename != ""
      && request.files["image"].sizeBytes <= MaxFileSize
      && request.files["image"].contentType.Some?
      && !StartsWith(request.files["image"].contentType.value, "image/")) ==>
      Detect(model, request, inference) == ApiResponse(400, ErrorBody(InvalidTypeError))
    ensures (model.Some? && "image" in request.files && request.files["image"].filename != ""
      && request.files["image"].sizeBytes <= MaxFileSize
      && request.files["image"].contentType.None?) ==>
      Detect(model, request, inference) == ApiResponse(500, ErrorBody(InternalError))
    ensures model.Some? && UploadAccepted(request) && inference.None? ==>
      Detect(model, request, inference) == ApiResponse(500, ErrorBody(PredictionFailedError))
  {
  }

  /** The size limit is inclusive: exactly 5 MiB passes, one byte more does not. */
  lemma SizeLimitBoundary(network: Network, name: string, contentType: string, out: Inference)
    requires name != "" && StartsWith(contentType, "image/")
    ensures Detect(Some(network), DetectRequest(map["image" := Upload(name, MaxFileSize, Some(contentType))]), Some(out)).status == 200
    ensures Detect(Some(network), DetectRequest(map["image" := Upload(name, MaxFileSize + 1, Some(contentType))]), Some(out))
      == ApiResponse(400, ErrorBody(TooLargeError))
  {
  }

  /** `health_check`: always 200 and healthy; `model_loaded` says whether a model is set. */
  function Health(model: Option<Network>): (r: ApiResponse)
    ensures r.status == 200
    ensures r.body.HealthBody? && r.body.status == "healthy"
    ensures r.body.modelLoaded <==> model.Some?
  {
    ApiResponse(200, HealthBody("healthy", model.Some?))
  }

  /** The new name of a checkpoint key: a key starting with `efficientnet.` has
      every occurrence of that text removed, any other key is kept. */
  function StripKey(key: string): string {
    if StartsWith(key, KeyPrefix) then RemoveAll(key, KeyPrefix) else key
  }

  /** A key without the prefix keeps its name; a key with it loses the prefix
      and every further occurrence of it; a key that is the prefix followed by
      a name not containing it becomes that name. */
  lemma StripKeyCases(key: string)
    ensures !StartsWith(key, KeyPrefix) ==> StripKey(key) == key
    ensures StartsWith(key, KeyPrefix) ==> StripKey(key) == RemoveAll(key[|KeyPrefix|..], KeyPrefix)
    ensures StartsWith(key, KeyPrefix) && !Contains(key[|KeyPrefix|..], KeyPrefix) ==>
      StripKey(key) == key[|KeyPrefix|..]
  {
    if StartsWith(key, KeyPrefix) {
      var rest := key[|KeyPrefix|..];
      assert key == [] + KeyPrefix + rest;
      RemoveAllSkip([], KeyPrefix, rest);
      if !Contains(rest, KeyPrefix) {
        RemoveAllAbsent(rest, KeyPrefix);
      }
    }
  }

  /** A second occurrence of the prefix later in the key is removed too:
      `efficientnet.` + a + `efficientnet.` + s, with no occurrence starting
      inside a, becomes a followed by s with its occurrences removed. */
  lemma StripKeyLaterOccurrence(a: string, s: string)
    requires forall i: nat :: i < |a| ==> !OccursAt(a + KeyPrefix + s, KeyPrefix, i)
    ensures StripKey(KeyPrefix + a + KeyPrefix + s) == a + RemoveAll(s, KeyPrefix)
  {
    var key := KeyPrefix + a + KeyPrefix + s;
    assert key[..|KeyPrefix|] == KeyPrefix;
    assert key == [] + KeyPrefix + (a + KeyPrefix + s);
    RemoveAllSkip([], KeyPrefix, a + KeyPrefix + s);
    RemoveAllSkip(a, KeyPrefix, s);
  }

  /** The dict the renaming loop builds from the checkpoint's items, taken in
      order: each item is written under its new name, over any earlier one. */
  function Renamed(items: seq<(string, Tensor)>): map<string, Tensor>
  {
    if items == [] then map[]
    else Renamed(items[..|items| - 1])[StripKey(items[|items| - 1].0) := items[|items| - 1].1]
  }

  /** The renamed dict has exactly the new names of the items as keys. */
  lemma {:induction false} RenamedKeys(items: seq<(string, Tensor)>)
    ensures Renamed(items).Keys == set i | 0 <= i < |items| :: StripKey(items[i].0)
  {
    if items != [] {
      var init := items[..|items| - 1];
      RenamedKeys(init);
      var s := set i | 0 <= i < |items| :: StripKey(items[i].0);
      var t := set i | 0 <= i < |init| :: StripKey(init[i].0);
      assert s == t + {StripKey(items[|items| - 1].0)} by {
        forall k | k in s ensures k in t + {StripKey(items[|items| - 1].0)} {
          var i :| 0 <= i < |items| && k == StripKey(items[i].0);
          if i < |init| { assert init[i] == items[i]; }
        }
        forall k | k in t ensures k in s {
          var i :| 0 <= i < |init| && k == StripKey(init[i].0);
          assert init[i] == items[i];
        }
      }
    }
  }

  /** On a collision the later item wins: an item whose new name no later item
      shares is the value under that name. */
  lemma {:induction false} RenamedLastWins(items: seq<(string, Tensor)>, i: nat)
    requires i < |items|
    requires forall j :: i < j < |items| ==> StripKey(items[j].0) != StripKey(items[i].0)
    ensures StripKey(items[i].0) in Renamed(items)
    ensures Renamed(items)[StripKey(items[i].0)] == items[i].1
  {
    var last := |items| - 1;
    if i < last {
      var init := items[..last];
      forall j | i < j < |init| ensures StripKey(init[j].0) != StripKey(init[i].0) {
        assert init[j] == items[j];
      }
      RenamedLastWins(init, i);
      assert init[i] == items[i];
    }
  }

  /** The renaming loop of `load_model`. */
  method RenameKeys(items: seq<(string, Tensor)>) returns (renamed: map<string, Tensor>)
    ensures renamed == Renamed(items)
  {
    renamed := map[];
    var n := 0;
    while n < |items|
      invariant 0 <= n <= |items|
      invariant renamed == Renamed(items[..n])
    {
      var (k, v) := items[n];
      var newKey := if StartsWith(k, KeyPrefix) then RemoveAll(k, KeyPrefix) else k;
      assert items[..n + 1][..n] == items[..n];
      renamed := renamed[newKey := v];
      n := n + 1;
    }
    assert items[..n] == items;
  }

  /** The process-wide `model` global and `load_model`. */
  class Server {
    var model: Option<Network>

    constructor ()
      ensures model.None?
    {
      model := None;
    }

    /** `load_model` as written. `pathExists` is `os.path.exists(MODEL_PATH)`;
        `checkpoint` is what `torch.load` returned (`None`: it raised);
        `parameterNames` are the keys `load_state_dict` expects in strict mode.
        The fresh network is assigned to `model` before the checkpoint is read,
        so every failure after that point leaves it set. */
    method LoadModel(pathExists: bool, checkpoint: Option<map<string, seq<(string, Tensor)>>>, parameterNames: set<string>)
      returns (ok: bool)
      modifies this
      ensures ok <==> (pathExists && checkpoint.Some? && StateDictKey in checkpoint.value
        && Renamed(checkpoint.value[StateDictKey]).Keys == parameterNames)
      ensures ok ==> model == Some(Network(parameterNames, Some(Renamed(checkpoint.value[StateDictKey]))))
      ensures !pathExists ==> model == old(model)
      ensures pathExists && !ok ==> model == Some(Network(parameterNames, None))
    {
      if !pathExists {
        return false;
      }
      model := Some(Network(parameterNames, None));
      if checkpoint.None? || StateDictKey !in checkpoint.value {
        return false;
      }
      var renamed := RenameKeys(checkpoint.value[StateDictKey]);
      if renamed.Keys != parameterNames {
        return false;
      }
      model := Some(Network(parameterNames, Some(renamed)));
      return true;
    }

    /** `load_model` with the network assigned only once its weights are in:
        a failed load leaves `model` as it was. */
    method LoadModelAtomic(pathExists: bool, checkpoint: Option<map<string, seq<(string, Tensor)>>>, parameterNames: set<string>)
      returns (ok: bool)
      modifies this
      ensures ok <==> (pathExists && checkpoint.Some? && StateDictKey in checkpoint.value
        && Renamed(checkpoint.value[StateDictKey]).Keys == parameterNames)
      ensures ok ==> model == Some(Network(parameterNames, Some(Renamed(checkpoint.value[StateDictKey]))))
      ensures !ok ==> model == old(model)
    {
      if !pathExists || checkpoint.None? || StateDictKey !in checkpoint.value {
        return false;
      }
      var renamed := RenameKeys(checkpoint.value[StateDictKey]);
      if renamed.Keys != parameterNames {
        return false;
      }
      model := Some(Network(parameterNames, Some(renamed)));
      return true;
    }
  }

  /** At start-up, a model file that `torch.load` cannot read makes `load_model`
      report failure while health reports the model as loaded and the endpoint
      answers 200 with the untrained network. */
  method FailedLoadStillServes(request: DetectRequest, out: Inference) returns (ok: bool, reportedLoaded: bool, status: int)
    requires UploadAccepted(request)
    ensures !ok && reportedLoaded && status == 200
  {
    var server := new Server();
    ok := server.LoadModel(true, None, {"features.0.weight"});
    reportedLoaded := Health(server.model).body.modelLoaded;
    status := Detect(server.model, request, Some(out)).status;
  }

  /** With the corrected loader the same failure keeps the server unloaded. */
  method FailedAtomicLoadStaysUnloaded(request: DetectRequest, out: Inference) returns (ok: bool, reportedLoaded: bool, status: int)
    ensures !ok && !reportedLoaded && status == 503
  {
    var server := new Server();
    ok := server.LoadModelAtomic(true, None, {"features.0.weight"});
    reportedLoaded := Health(server.model).body.modelLoaded;
    status := Detect(server.model, request, Some(out)).status;
  }
}

=== FILE: button.dfy ===
/** The one rule of frontend/src/components/ui/Button.jsx the other components rely on. */
module Button {

  /** The button is disabled when asked to be or while it shows its spinner. */
  function Disabled(disabled: bool, isLoading: bool): (r: bool)
    ensures isLoading ==> r
    ensures !isLoading ==> (r <==> disabled)
  {
    disabled || isLoading
  }
}

=== FILE: home.dfy ===
/** The page state of frontend/src/pages/Home.jsx: the selected file, its
    preview URL, the loading flag, the accepted result and the error banner,
    updated by the file, clear and analyze handlers.

    Object URLs are abstract tokens: `URL.createObjectURL` hands out the next
    unused number and every `URL.revokeObjectURL` is appended to `revoked`.
    `handleAnalyze` is split at its `await`: `BeginAnalyze` is the part before
    the request, `FinishAnalyze` the part after it, given what the request
    produced. */
module Home {
  import opened Wrappers
  import opened JsValues
  import Backend

  const AnalyzeErrorMessage := "Could not analyze this image. Please try again."

  /** A parsed JSON response body. `Unparsable`: `response.json()` rejects;
      `JsonOther`: an array, number, string or boolean, on which the three
      property reads give `undefined`. */
  datatype JsonBody =
    | Unparsable
    | JsonNull
    | JsonObject(fields: map<string, JsValue>)
    | JsonOther

  /** What the `fetch` produced: a network failure, or a response with its `ok`
      flag and body. */
  datatype FetchOutcome =
    | NetworkFailure
    | HttpResponse(ok: bool, body: JsonBody)

  /** `data[key]` on a parsed object; a missing key reads as `undefined`. */
  function Field(fields: map<string, JsValue>, key: string): JsValue {
    if key in fields then fields[key] else Undefined
  }

  /** The data `handleAnalyze` accepts: an `ok` response whose body is an object
      with a truthy `severity`, a numeric `score` and a truthy `explanation`.
      Every other outcome (a thrown fetch, a non-ok status, a body that does not
      parse, `null`, or a failed shape check) is rejected. */
  function AcceptedData(outcome: FetchOutcome): (r: Option<map<string, JsValue>>)
    ensures r.Some? <==>
      && outcome.HttpResponse? && outcome.ok && outcome.body.JsonObject?
      && Truthy(Field(outcome.body.fields, "severity"))
      && IsNumberType(Field(outcome.body.fields, "score"))
      && Truthy(Field(outcome.body.fields, "explanation"))
    ensures r.Some? ==> r.value == outcome.body.fields
  {
    match outcome
    case NetworkFailure => None
    case HttpResponse(ok, body) =>
      if !ok then None
      else match body
        case JsonObject(fields) =>
          if !Truthy(Field(fields, "severity")) || !IsNumberType(Field(fields, "score"))
            || !Truthy(Field(fields, "explanation")) then None
          else Some(fields)
        case _ => None
  }

  /** The JSON the backend sends for a prediction (`jsonify(result)`). */
  function PredictionJson(p: Backend.Prediction): map<string, JsValue> {
    map[
      "severity" := Str(p.severity),
      "score" := Number(p.score),
      "explanation" := Str(p.explanation),
      "class" := Str(p.className),
      "confidence" := Number(p.confidence)]
  }

  /** A prediction with a severity and an explanation passes the page's
      response check, its JSON becoming the result. */
  lemma PredictionAccepted(p: Backend.Prediction)
    requires p.severity != "" && p.explanation != ""
    ensures AcceptedData(HttpResponse(true, JsonObject(PredictionJson(p)))) == Some(PredictionJson(p))
  {
    var fields := PredictionJson(p);
    assert Field(fields, "severity") == Str(p.severity);
    assert Field(fields, "score") == Number(p.score);
    assert Field(fields, "explanation") == Str(p.explanation);
  }

  /** The JSON object a backend response body is sent as. */
  function BodyJson(body: Backend.ApiBody): map<string, JsValue> {
    match body
    case ErrorBody(message) => map["error" := Str(message)]
    case PredictionBody(p) => PredictionJson(p)
    case HealthBody(status, modelLoaded) => map["status" := Str(status), "model_loaded" := Bool(modelLoaded)]
  }

  /** What `fetch` sees of a backend response: `response.ok` holds exactly for a
      2xx status, and the body parses to the JSON object of the response body. */
  function ResponseOutcome(r: Backend.ApiResponse): FetchOutcome {
    HttpResponse(200 <= r.status < 300, JsonObject(BodyJson(r.body)))
  }

  /** The backend's answers and the page's check fit together: the page accepts
      a detect response exactly when its status is 200, and then the result is
      the prediction's JSON; every error status (400, 500, 503) ends in the
      error banner. */
  lemma BackendResponsesAccepted(model: Option<Backend.Network>, request: Backend.DetectRequest,
                                 inference: Option<Backend.Inference>)
    ensures var r := Backend.Detect(model, request, inference);
      AcceptedData(ResponseOutcome(r)).Some? <==> r.status == 200
    ensures var r := Backend.Detect(model, request, inference);
      r.status == 200 ==> AcceptedData(ResponseOutcome(r)) == Some(PredictionJson(r.body.prediction))
  {
    var r := Backend.Detect(model, request, inference);
    if r.status == 200 {
      Backend.PredictionFieldsNonEmpty(model, inference);
      PredictionAccepted(r.body.prediction);
    } else {
      assert !(200 <= r.status < 300);
    }
  }

  type Url = nat

  class HomePage {
    var file: Option<File>
    var previewUrl: Option<Url>
    var isLoading: bool
    var result: Option<map<string, JsValue>>
    var error: Option<string>
    /** Every `revokeObjectURL`, in order. */
    var revoked: seq<Url>
    /** The token the next `createObjectURL` returns. */
    var nextUrl: Url

    /** A preview exists exactly when a file is selected, its URL was handed out
        and not revoked, the result card and the error banner are never shown
        together, and while a request is in flight neither is shown. */
    ghost predicate Valid()
      reads this
    {
      && (file.Some? <==> previewUrl.Some?)
      && (previewUrl.Some? ==> previewUrl.value < nextUrl && previewUrl.value !in revoked)
      && (forall i :: 0 <= i < |revoked| ==> revoked[i] < nextUrl)
      && !(ShowsResultCard() && ShowsErrorBanner())
      && (isLoading ==> !ShowsResultCard() && !ShowsErrorBanner())
    }

    /** `{result && <ResultCard result={result} />}`. */
    predicate ShowsResultCard()
      reads this
    {
      result.Some?
    }

    /** `{error && (<div ...>{error}</div>)}`; the only message ever set is non-empty. */
    predicate ShowsErrorBanner()
      reads this
    {
      error.Some?
    }

    constructor ()
      ensures Valid()
      ensures file.None? && previewUrl.None? && !isLoading && result.None? && error.None?
      ensures revoked == [] && nextUrl == 0
    {
      file, previewUrl, isLoading, result, error := None, None, false, None, None;
      revoked, nextUrl := [], 0;
    }

    /** The revocations a handler causes when it replaces or clears the preview:
        its own call, then the cleanup of the effect on `previewUrl` when the
        new render commits. */
    static function Released(previous: Option<Url>): seq<Url> {
      match previous
      case None => []
      case Some(u) => [u, u]
    }

    /** `handleFileSelect`: revoke any old preview; with a file, select it with a
        fresh preview and clear result and error; without one, clear the file
        and preview and leave result and error alone. */
    method HandleFileSelect(selected: Option<File>)
      requires Valid()
      modifies this
      ensures Valid()
      ensures revoked == old(revoked) + Released(old(previewUrl))
      ensures file == selected && isLoading == old(isLoading)
      ensures selected.Some? ==>
        previewUrl == Some(old(nextUrl)) && nextUrl == old(nextUrl) + 1 && result.None? && error.None?
      ensures selected.None? ==>
        previewUrl.None? && nextUrl == old(nextUrl) && result == old(result) && error == old(error)
    {
      if previewUrl.Some? {
        revoked := revoked + [previewUrl.value];
      }
      var previous := previewUrl;
      if selected.Some? {
        file := selected;
        previewUrl := Some(nextUrl);
        nextUrl := nextUrl + 1;
        result := None;
        error := None;
      } else {
        file := None;
        previewUrl := None;
      }
      if previous.Some? {
        revoked := revoked + [previous.value];
      }
    }

    /** `handleClear`: revoke any preview and clear file, preview, result and error. */
    method HandleClear()
      requires Valid()
      modifies this
      ensures Valid()
      ensures revoked == old(revoked) + Released(old(previewUrl))
      ensures file.None? && previewUrl.None? && result.None? && error.None?
      ensures isLoading == old(isLoading) && nextUrl == old(nextUrl)
    {
      var previous := previewUrl;
      if previewUrl.Some? {
        revoked := revoked + [previewUrl.value];
      }
      file := None;
      previewUrl := None;
      result := None;
      error := None;
      if previous.Some? {
        revoked := revoked + [previous.value];
      }
    }

    /** The start of `handleAnalyze`: nothing happens without a file or while a
        request is loading; otherwise loading starts, error and result are
        cleared, and the file is posted as `image`. */
    method BeginAnalyze() returns (posted: Option<File>)
      requires Valid()
      modifies this
      ensures Valid()
      ensures old(file).None? || old(isLoading) ==>
        posted.None? && isLoading == old(isLoading) && result == old(result) && error == old(error)
      ensures old(file).Some? && !old(isLoading) ==>
        posted == old(file) && isLoading && result.None? && error.None?
      ensures file == old(file) && previewUrl == old(previewUrl)
      ensures revoked == old(revoked) && nextUrl == old(nextUrl)
    {
      if file.None? || isLoading {
        return None;
      }
      isLoading := true;
      error := None;
      result := None;
      posted := file;
    }

    /** The end of `handleAnalyze`: an accepted response becomes the result,
        anything else sets the one fixed error message; loading ends either way. */
    method FinishAnalyze(outcome: FetchOutcome)
      requires Valid() && isLoading
      modifies this
      ensures Valid()
      ensures !isLoading
      ensures AcceptedData(outcome).Some? ==> result == AcceptedData(outcome) && error.None?
      ensures AcceptedData(outcome).None? ==> result.None? && error == Some(AnalyzeErrorMessage)
      ensures ShowsResultCard() != ShowsErrorBanner()
      ensures file == old(file) && previewUrl == old(previewUrl)
      ensures revoked == old(revoked) && nextUrl == old(nextUrl)
    {
      var data := AcceptedData(outcome);
      if data.Some? {
        result := data;
      } else {
        error := Some(AnalyzeErrorMessage);
      }
      isLoading := false;
    }
  }
}

=== FILE: image_uploader.dfy ===
/** The decisions of frontend/src/components/features/ImageUploader.jsx: the
    unit `formatFileSize` picks, which dropped or picked file reaches
    `onFileSelect`, and which controls are shown and enabled. */
module ImageUploader {
  import opened Wrappers
  import opened JsValues
  import opened Text
  import Button

  const KiB := 1024
  const MiB := 1024 * 1024

  /** The decimal digits of `n`, as a template literal writes a number. */
  function Decimal(n: nat): (s: string)
    ensures |s| > 0
    ensures forall i :: 0 <= i < |s| ==> '0' <= s[i] <= '9'
    decreases n
  {
    if n < 10 then [('0' as int + n) as char]
    else Decimal(n / 10) + [('0' as int + n % 10) as char]
  }

  /** The number a string of decimal digits denotes. */
  function DecimalValue(s: string): nat
    decreases |s|
  {
    if s == [] then 0
    else DecimalValue(s[..|s| - 1]) * 10 + (if '0' <= s[|s| - 1] <= '9' then s[|s| - 1] as int - '0' as int else 0)
  }

  /** Reading the digits back gives the number, and no number but 0 is written
      with a leading zero. */
  lemma {:induction false} DecimalRoundTrip(n: nat)
    ensures DecimalValue(Decimal(n)) == n
    ensures Decimal(n)[0] == '0' ==> n == 0
    decreases n
  {
    if n >= 10 {
      DecimalRoundTrip(n / 10);
      var s := Decimal(n);
      assert s[..|s| - 1] == Decimal(n / 10);
      assert s[0] == Decimal(n / 10)[0];
    }
  }

  /** The displayed size: a whole byte count, or a value with one decimal
      (`toFixed(1)`, whose rounding is not modelled) and its unit. */
  datatype SizeText =
    | Exact(text: string)
    | Fixed1(value: real, unit: string)

  /** `formatFileSize`: bytes below 1 KiB, kilobytes below 1 MiB, megabytes from there. */
  function FormatFileSize(bytes: nat): (t: SizeText)
    ensures t.Exact? <==> bytes < KiB
    ensures t.Exact? ==> t.text == Decimal(bytes) + " B"
    ensures t.Fixed1? && t.unit == "KB" <==> KiB <= bytes < MiB
    ensures t.Fixed1? && t.unit == "MB" <==> MiB <= bytes
    ensures t.Fixed1? && t.unit == "KB" ==> t.value * KiB as real == bytes as real && 1.0 <= t.value < 1024.0
    ensures t.Fixed1? && t.unit == "MB" ==> t.value * MiB as real == bytes as real && 1.0 <= t.value
  {
    if bytes < KiB then Exact(Decimal(bytes) + " B")
    else if bytes < MiB then Fixed1(bytes as real / KiB as real, "KB")
    else Fixed1(bytes as real / MiB as real, "MB")
  }

  /** The boundaries go to the larger unit. */
  lemma FormatFileSizeBoundaries()
    ensures FormatFileSize(KiB - 1).Exact?
    ensures FormatFileSize(KiB) == Fixed1(1.0, "KB")
    ensures FormatFileSize(MiB - 1).unit == "KB"
    ensures FormatFileSize(MiB) == Fixed1(1.0, "MB")
  {
  }

  /** `handleDrop`: the first dropped file, only if it is an image. */
  function DroppedFile(files: seq<File>): (r: Option<File>)
    ensures r.Some? <==> |files| > 0 && StartsWith(files[0].mimeType, "image/")
    ensures r.Some? ==> r.value == files[0]
  {
    if |files| > 0 && StartsWith(files[0].mimeType, "image/") then Some(files[0]) else None
  }

  /** `handleInputChange`: the first selected file, whatever its type. */
  function PickedFile(files: seq<File>): (r: Option<File>)
    ensures r.Some? <==> |files| > 0
    ensures r.Some? ==> r.value == files[0]
  {
    if |files| > 0 then Some(files[0]) else None
  }

  /** The drop path is the picker path with a type check added: whatever a drop
      forwards, the picker would forward too, and the picker forwards a
      non-image file that a drop refuses. */
  lemma DropFiltersPick(files: seq<File>)
    ensures DroppedFile(files).Some? ==> DroppedFile(files) == PickedFile(files)
    ensures PickedFile(files).Some? && DroppedFile(files).None? ==> !StartsWith(files[0].mimeType, "image/")
  {
  }

  /** What the uploader shows. */
  datatype UploaderView = UploaderView(
    dropZone: bool,
    preview: bool,
    removeButton: bool,
    removeDisabled: bool,
    analyzeDisabled: bool,
    clearButton: bool,
    clearDisabled: bool)

  function Render(hasFile: bool, hasPreviewUrl: bool, isLoading: bool): (v: UploaderView)
    ensures v.dropZone <==> !hasFile
    ensures v.preview <==> hasFile
    ensures v.removeButton <==> hasFile && hasPreviewUrl
    ensures v.analyzeDisabled <==> !hasFile || isLoading
    ensures v.clearButton <==> hasFile
    ensures v.removeDisabled == isLoading && v.clearDisabled == isLoading
  {
    UploaderView(
      !hasFile,
      hasFile,
      hasFile && hasPreviewUrl,
      isLoading,
      Button.Disabled(!hasFile || isLoading, isLoading),
      hasFile,
      Button.Disabled(isLoading, false))
  }
}

=== FILE: js_values.dfy ===
/** The JavaScript values the frontend inspects, and the browser's `File`. */
module JsValues {

  /** A JavaScript value as far as `typeof` and truthiness can tell them apart.
      `Composite` stands for any object or array. */
  datatype JsValue =
    | Undefined
    | Null
    | Bool(b: bool)
    | Number(n: real)
    | NaN
    | Str(s: string)
    | Composite

  /** JavaScript truthiness: `undefined`, `null`, `false`, `0`, `NaN` and `""` are falsy. */
  predicate Truthy(v: JsValue) {
    match v
    case Undefined => false
    case Null => false
    case Bool(b) => b
    case Number(n) => n != 0.0
    case NaN => false
    case Str(s) => s != ""
    case Composite => true
  }

  /** `typeof v === 'number'`, which holds of `NaN` too. */
  predicate IsNumberType(v: JsValue) {
    v.Number? || v.NaN?
  }

  /** A browser `File`: its name, its size in bytes and its MIME type (`file.type`,
      the empty string when the browser cannot tell). */
  datatype File = File(name: string, size: nat, mimeType: string)
}

=== FILE: text.dfy ===
/** String helpers shared by the backend and the frontend models. */
module Text {

  /** `s.startswith(prefix)` in Python, `s.startsWith(prefix)` in JavaScript. */
  predicate StartsWith(s: string, prefix: string) {
    |prefix| <= |s| && s[..|prefix|] == prefix
  }

  /** `pat` occurs in `s` starting at index `i`. */
  predicate OccursAt(s: string, pat: string, i: nat) {
    i + |pat| <= |s| && s[i..i + |pat|] == pat
  }

  /** `pat in s` in Python. */
  predicate Contains(s: string, pat: string) {
    exists i: nat :: i <= |s| && OccursAt(s, pat, i)
  }

  /** Every occurrence of the character `from` replaced by `to`, as
      `s.replace('_', ' ')` does for one-character arguments. */
  function ReplaceChar(s: string, from: char, to: char): (r: string)
    ensures |r| == |s|
    ensures forall i :: 0 <= i < |s| ==> r[i] == (if s[i] == from then to else s[i])
  {
    if s == [] then [] else [if s[0] == from then to else s[0]] + ReplaceChar(s[1..], from, to)
  }

  /** `s.replace(pat, '')` in Python: the occurrences of `pat` are found left to
      right without overlapping, and each is removed. */
  function RemoveAll(s: string, pat: string): (r: string)
    requires |pat| > 0
    ensures |r| <= |s|
    decreases |s|
  {
    if |s| < |pat| then s
    else if s[..|pat|] == pat then RemoveAll(s[|pat|..], pat)
    else [s[0]] + RemoveAll(s[1..], pat)
  }

  /** Dropping the first character shifts every occurrence one place left. */
  lemma OccursShift(x: string, pat: string, i: nat)
    requires 0 < |x|
    ensures OccursAt(x[1..], pat, i) <==> OccursAt(x, pat, i + 1)
  {
    if i + 1 + |pat| <= |x| {
      assert x[1..][i..i + |pat|] == x[i + 1..i + 1 + |pat|];
    }
  }

  /** An occurrence of `pat` preceded by text in which no occurrence of `pat`
      starts is removed, and the scan goes on after it: every occurrence is
      removed, not only the first. */
  lemma {:induction false} RemoveAllSkip(a: string, pat: string, s: string)
    requires |pat| > 0
    requires forall i: nat :: i < |a| ==> !OccursAt(a + pat + s, pat, i)
    ensures RemoveAll(a + pat + s, pat) == a + RemoveAll(s, pat)
    decreases |a|
  {
    var x := a + pat + s;
    if a == [] {
      assert x[..|pat|] == pat && x[|pat|..] == s;
    } else {
      var y := a[1..] + pat + s;
      assert x[1..] == y;
      assert !OccursAt(x, pat, 0);
      forall i: nat | i < |a[1..]|
        ensures !OccursAt(y, pat, i)
      {
        OccursShift(x, pat, i);
      }
      RemoveAllSkip(a[1..], pat, s);
      assert RemoveAll(x, pat) == [x[0]] + RemoveAll(y, pat);
      assert [a[0]] + a[1..] == a;
    }
  }

  /** A string in which `pat` does not occur is left as it is. */
  lemma {:induction false} RemoveAllAbsent(s: string, pat: string)
    requires |pat| > 0 && !Contains(s, pat)
    ensures RemoveAll(s, pat) == s
    decreases |s|
  {
    if |s| >= |pat| {
      assert !OccursAt(s, pat, 0);
      assert s[..|pat|] != pat;
      forall i: nat | i <= |s[1..]| && OccursAt(s[1..], pat, i)
        ensures false
      {
        assert s[1..][i..i + |pat|] == s[i + 1..i + 1 + |pat|];
        assert OccursAt(s, pat, i + 1);
      }
      RemoveAllAbsent(s[1..], pat);
    }
  }
}

=== FILE: video_result_card.dfy ===
/** The decision logic of frontend/src/components/features/VideoResultCard.jsx:
    the timestamp sort, the high-severity test and what it switches on, the
    colour and emoji tables, and the card's two pieces of state (the expanded
    row and the alarm button). */
module VideoResultCard {
  import opened Wrappers

  /** One per-frame detection as far as the card inspects it. */
  datatype Detection = Detection(timestamp: real, severity: string, className: string)

  const Red := "#ef4444"
  const Amber := "#f59e0b"
  const Green := "#10b981"
  const Grey := "#6b7280"
  const HighBackground := "#fee2e2"
  const MediumBackground := "#fef3c7"
  const LowBackground := "#dcfce7"
  const DefaultBackground := "#f3f4f6"

  const KnownSeverities: set<string> := {"High", "Medium", "Low"}

  const AlarmResetMs := 3000

  predicate SortedByTimestamp(ds: seq<Detection>) {
    forall i, j :: 0 <= i < j < |ds| ==> ds[i].timestamp <= ds[j].timestamp
  }

  /** `d` placed ahead of the first element that is not earlier than it. */
  function Insert(d: Detection, sorted: seq<Detection>): (r: seq<Detection>)
    ensures multiset(r) == multiset(sorted) + multiset{d}
    ensures |r| == |sorted| + 1
  {
    if sorted == [] || d.timestamp <= sorted[0].timestamp then [d] + sorted
    else
      assert sorted == [sorted[0]] + sorted[1..];
      [sorted[0]] + Insert(d, sorted[1..])
  }

  /** Inserting into a sorted sequence keeps it sorted; the result starts with
      `d` or with the old first element. */
  lemma {:induction false} InsertSorted(d: Detection, sorted: seq<Detection>)
    requires SortedByTimestamp(sorted)
    ensures SortedByTimestamp(Insert(d, sorted))
    ensures Insert(d, sorted)[0] == d || (sorted != [] && Insert(d, sorted)[0] == sorted[0])
  {
    if sorted != [] && d.timestamp > sorted[0].timestamp {
      var rest := Insert(d, sorted[1..]);
      InsertSorted(d, sorted[1..]);
      var r := [sorted[0]] + rest;
      assert r == Insert(d, sorted);
      assert sorted[0].timestamp <= rest[0].timestamp;
      forall i, j | 0 <= i < j < |r| ensures r[i].timestamp <= r[j].timestamp {
        if i > 0 {
          assert r[i] == rest[i - 1] && r[j] == rest[j - 1];
        } else {
          assert r[j] == rest[j - 1];
          assert rest[0].timestamp <= rest[j - 1].timestamp;
        }
      }
    }
  }

  /** `[...result.detections].sort((a, b) => a.timestamp - b.timestamp)`: a new
      sequence holding the same detections in nondecreasing timestamp order. */
  function SortDetections(ds: seq<Detection>): (r: seq<Detection>)
    ensures SortedByTimestamp(r)
    ensures multiset(r) == multiset(ds)
  {
    if ds == [] then []
    else
      assert ds == [ds[0]] + ds[1..];
      var rest := SortDetections(ds[1..]);
      InsertSorted(ds[0], rest);
      Insert(ds[0], rest)
  }

  /** `result.detections.some(d => d.severity === 'High')`. */
  function HasHighSeverity(ds: seq<Detection>): (r: bool)
    ensures r <==> exists i :: 0 <= i < |ds| && ds[i].severity == "High"
  {
    if ds == [] then false
    else ds[0].severity == "High" || HasHighSeverity(ds[1..])
  }

  /** The severity's text colour; anything but the three levels gets grey. */
  function SeverityColor(severity: string): (color: string)
    ensures color == Grey <==> severity !in KnownSeverities
  {
    match severity
    case "High" => Red
    case "Medium" => Amber
    case "Low" => Green
    case _ => Grey
  }

  /** The severity's badge background; anything but the three levels gets the default. */
  function SeverityBackgroundColor(severity: string): (color: string)
    ensures color == DefaultBackground <==> severity !in KnownSeverities
  {
    match severity
    case "High" => HighBackground
    case "Medium" => MediumBackground
    case "Low" => LowBackground
    case _ => DefaultBackground
  }

  /** The three levels get three different colours, in text and in background. */
  lemma SeverityColorsDistinct(s: string, t: string)
    requires s in KnownSeverities && t in KnownSeverities && s != t
    ensures SeverityColor(s) != SeverityColor(t)
    ensures SeverityBackgroundColor(s) != SeverityBackgroundColor(t)
  {
  }

  const WarningEmoji := "\U{26A0}\U{FE0F}"

  const EmojiMap: map<string, string> := map[
    "texting_right" := "\U{1F4F1}",
    "talking_phone_right" := "\U{260E}\U{FE0F}",
    "texting_left" := "\U{1F4F1}",
    "talking_phone_left" := "\U{260E}\U{FE0F}",
    "operating_radio" := "\U{1F4FB}",
    "drinking" := "\U{1F964}",
    "reaching_behind" := "\U{1FAF3}",
    "hair_makeup" := "\U{1F484}",
    "talking_passenger" := "\U{1F4AC}",
    "safe_driving" := "\U{2705}"]

  /** `emojiMap[className] || '⚠️'`: the class's emoji, the warning sign for
      any class not in the table. */
  function DistractionEmoji(className: string): (emoji: string)
    ensures emoji == WarningEmoji <==> className !in EmojiMap
    ensures className in EmojiMap ==> emoji == EmojiMap[className]
  {
    if className in EmojiMap && EmojiMap[className] != "" then EmojiMap[className] else WarningEmoji
  }

  /** The colour of the distraction rate: red above 50, amber above 20, else green. */
  function RateColor(percentage: real): (color: string)
    ensures color == Red <==> percentage > 50.0
    ensures color == Amber <==> 20.0 < percentage <= 50.0
    ensures color == Green <==> percentage <= 20.0
  {
    if percentage > 50.0 then Red else if percentage > 20.0 then Amber else Green
  }

  /** The boundaries belong to the lower band: 50 is amber, 20 is green. */
  lemma RateColorBoundaries()
    ensures RateColor(50.0) == Amber && RateColor(20.0) == Green
    ensures RateColor(50.1) == Red && RateColor(20.1) == Amber
  {
  }

  /** The colour of the distracted-frame count: red when there is any. */
  function DistractedFramesColor(distractedFrames: int): (color: string)
    ensures color == Red <==> distractedFrames > 0
    ensures color == Green <==> distractedFrames <= 0
  {
    if distractedFrames > 0 then Red else Green
  }

  /** What the card shows. */
  datatype CardView = CardView(
    alertBadge: bool,
    alarmSection: bool,
    alarmButtonActive: bool,
    timeline: seq<Detection>,
    expandedRow: Option<nat>)

  /** The card for a result, the expanded row and the alarm flag. */
  function Render(detections: seq<Detection>, expanded: Option<nat>, alarmPlaying: bool): (v: CardView)
    ensures v.alertBadge <==> exists i :: 0 <= i < |detections| && detections[i].severity == "High"
    ensures v.alarmSection == v.alertBadge
    ensures v.alarmButtonActive <==> v.alarmSection && alarmPlaying
    ensures SortedByTimestamp(v.timeline) && multiset(v.timeline) == multiset(detections)
    ensures v.timeline == [] <==> detections == []
    ensures v.expandedRow.Some? <==> expanded.Some? && expanded.value < |detections|
    ensures v.expandedRow.Some? ==> v.expandedRow == expanded
  {
    var high := HasHighSeverity(detections);
    var timeline := SortDetections(detections);
    assert |timeline| == |detections| by {
      assert |multiset(timeline)| == |multiset(detections)|;
    }
    CardView(high, high, high && alarmPlaying, timeline,
      if expanded.Some? && expanded.value < |timeline| then expanded else None)
  }

  /** The card's `useState` fields; `pendingResets` holds the delays of the `setTimeout`
      callbacks of `handleTriggerAlarm` that have not run yet. */
  class CardState {
    var expanded: Option<nat>
    var alarmPlaying: bool
    /** The delays of the reset timers not yet run, oldest first. */
    var pendingResets: seq<int>

    constructor ()
      ensures expanded == None && !alarmPlaying && pendingResets == []
    {
      expanded, alarmPlaying, pendingResets := None, false, [];
    }

    /** The rows of a timeline of `rowCount` rows that show their details. */
    function ExpandedRows(rowCount: nat): (rows: set<nat>)
      reads this
      ensures |rows| <= 1
      ensures forall i :: i in rows <==> i < rowCount && expanded == Some(i)
    {
      if expanded.Some? && expanded.value < rowCount then {expanded.value} else {}
    }

    /** A click on row `idx` collapses it if it was the expanded one, and
        expands it (collapsing any other) otherwise. */
    method ClickRow(idx: nat)
      modifies this
      ensures expanded == if old(expanded) == Some(idx) then None else Some(idx)
      ensures alarmPlaying == old(alarmPlaying) && pendingResets == old(pendingResets)
    {
      expanded := if expanded == Some(idx) then None else Some(idx);
    }

    /** `handleTriggerAlarm`: the button turns active, the `onPlayAlarm`
        callback is invoked only if one was given, and a reset is scheduled. */
    method TriggerAlarm(hasCallback: bool) returns (invokedCallback: bool)
      modifies this
      ensures alarmPlaying && invokedCallback == hasCallback
      ensures pendingResets == old(pendingResets) + [AlarmResetMs] && expanded == old(expanded)
    {
      alarmPlaying := true;
      invokedCallback := hasCallback;
      pendingResets := pendingResets + [AlarmResetMs];
    }

    /** The oldest scheduled reset runs (all share the same delay, so they run
        in the order of their clicks), whatever clicks came after it. */
    method FireAlarmReset()
      requires pendingResets != []
      modifies this
      ensures !alarmPlaying && pendingResets == old(pendingResets)[1..] && expanded == old(expanded)
    {
      alarmPlaying := false;
      pendingResets := pendingResets[1..];
    }
  }
}

=== FILE: video_uploader.dfy ===
/** The decisions of frontend/src/components/features/VideoUploader.jsx: the
    drag highlight, the `video/` filter on dropped and picked files, and which
    controls are shown and enabled. */
module VideoUploader {
  import opened JsValues
  import opened Text
  import Button

  const DropAlert := "Please drop a valid video file"
  const SelectAlert := "Please select a valid video file"

  /** What a drop or a pick leads to: nothing, the file handed to
      `onFileSelect`, or an `alert` with the given message. */
  datatype PickOutcome =
    | NoFile
    | Accepted(file: File)
    | Rejected(alertMessage: string)

  /** The first file is accepted if its type starts with `video/`; otherwise
      the alert is raised; an empty list does neither. */
  function VideoFilter(files: seq<File>, alertMessage: string): (r: PickOutcome)
    ensures r.NoFile? <==> files == []
    ensures r.Accepted? <==> files != [] && StartsWith(files[0].mimeType, "video/")
    ensures r.Accepted? ==> r.file == files[0]
    ensures r.Rejected? ==> r.alertMessage == alertMessage
  {
    if files == [] then NoFile
    else if StartsWith(files[0].mimeType, "video/") then Accepted(files[0])
    else Rejected(alertMessage)
  }

  /** `handleFileInput`. */
  function FileInputOutcome(files: seq<File>): (r: PickOutcome)
    ensures r.NoFile? <==> files == []
    ensures r.Accepted? <==> files != [] && StartsWith(files[0].mimeType, "video/")
    ensures r.Accepted? ==> r.file == files[0]
    ensures r.Rejected? ==> r.alertMessage == SelectAlert
  {
    VideoFilter(files, SelectAlert)
  }

  /** An image is never accepted as a video. */
  lemma ImageRejected(f: File, rest: seq<File>)
    requires StartsWith(f.mimeType, "image/")
    ensures VideoFilter([f] + rest, DropAlert) == Rejected(DropAlert)
  {
    assert f.mimeType[..6] == "image/";
    assert f.mimeType[0] == 'i';
    assert ([f] + rest)[0] == f;
  }

  /** The drop area's `dragActive` state. */
  class DropArea {
    var dragActive: bool

    constructor ()
      ensures !dragActive
    {
      dragActive := false;
    }

    /** `handleDrag`: enter and over turn the highlight on, leave turns it off,
        any other event leaves it. */
    method HandleDrag(eventType: string)
      modifies this
      ensures eventType == "dragenter" || eventType == "dragover" ==> dragActive
      ensures eventType == "dragleave" ==> !dragActive
      ensures eventType !in {"dragenter", "dragover", "dragleave"} ==> dragActive == old(dragActive)
    {
      if eventType == "dragenter" || eventType == "dragover" {
        dragActive := true;
      } else if eventType == "dragleave" {
        dragActive := false;
      }
    }

    /** `handleDrop`: the highlight goes off first, then the files are filtered. */
    method HandleDrop(files: seq<File>) returns (outcome: PickOutcome)
      modifies this
      ensures !dragActive
      ensures outcome == VideoFilter(files, DropAlert)
    {
      dragActive := false;
      outcome := VideoFilter(files, DropAlert);
    }
  }

  /** What the uploader shows. */
  datatype UploaderView = UploaderView(
    dropArea: bool,
    highlighted: bool,
    fileInputDisabled: bool,
    fileInfo: bool,
    removeDisabled: bool,
    analyzeGroup: bool,
    analyzeDisabled: bool)

  function Render(hasFile: bool, isLoading: bool, dragActive: bool): (v: UploaderView)
    ensures v.dropArea <==> !hasFile
    ensures v.highlighted <==> !hasFile && dragActive
    ensures v.fileInfo <==> hasFile
    ensures v.analyzeGroup <==> hasFile
    ensures v.fileInputDisabled == isLoading && v.removeDisabled == isLoading && v.analyzeDisabled == isLoading
  {
    UploaderView(
      !hasFile,
      !hasFile && dragActive,
      isLoading,
      hasFile,
      Button.Disabled(isLoading, false),
      hasFile,
      Button.Disabled(isLoading, false))
  }
}

=== FILE: wrappers.dfy ===
/** The optional value used wherever the source has `null`/`None`. */
module Wrappers {

  datatype Option<+T> = None | Some(value: T) {

    /** The value, or `default` when there is none (`x ?? default`, `d.get(k, default)`). */
    function GetOr(default: T): T {
      match this
      case Some(v) => v
      case None => default
    }
  }
}
